=== FILE: README.md ===
# fpool: a model of TBOX's fixed-size block pool

This project models the fixed-size block allocator of `src/memory/fpool.c`,
and proves what it promises, in Dafny.

`tb_fpool_init` takes a caller-owned buffer, given by its address and size. It
carves the buffer, in order, into three regions:

- the pool descriptor (the header);
- a used-bitmap with one bit per slot;
- a data region of `maxn` slots of `step` bytes each.

Each region starts on the pool's alignment. `tb_fpool_malloc` first tries the
slot the pool remembers as its hint (`pred`). If that slot is in use, it scans
the bitmap one machine word at a time for the lowest clear bit.
`tb_fpool_free` checks that the address is the start of a slot, clears the
slot's bit and makes that slot the hint. `tb_fpool_clear` frees everything,
and `tb_fpool_exit` also wipes the header.

The model has four modules:

- `Align` (align.dfy): `tb_align` and `tb_align_pow2` as arithmetic, plus the
  divisibility lemmas the layout needs.
- `Bitmap` (bitmap.dfy): the bitmap as bytes.
  - `Set1`, `Set0` and `Bit` are the three bit macros.
  - `Count` is the number of set bits, and `LowestClear` is the bit-by-bit
    reference search.
  - `ScanWords` is the word-parallel scan with its eight-way unrolled skip. It
    is proved to find exactly what the reference search finds.
- `FPool` (fpool.dfy): the pool.
  - A `Pool` value is the header fields together with the bytes of the bitmap
    region and the data region.
  - Every API call is a function from the pool to the new pool plus the C
    return value.
  - `Valid` is the pool invariant, with these parts:
    - the layout is aligned and fits;
    - `size` is the number of set bits;
    - the bitmap bits past `maxn` are clear;
    - the hint names a slot.
- `FPoolProps` (properties.dfy): properties that relate several calls.
  - Malloc and free undo each other.
  - A fresh or cleared pool hands out its slots in address order until it is
    full.
  - Clear gives back the freshly initialised pool, and clearing is idempotent.
  - Two slots never overlap.
  - An exited handle refuses everything.

Addresses are natural numbers, and 0 is NULL. The target is a 64-bit
little-endian machine, so:

- a word is 8 bytes (`TB_CPU_BITBYTE`);
- the scan reads 64-bit words;
- `sizeof(tb_fpool_t)` in a release build is 56 bytes.

Where the code and its description differ, the model follows the code:

- **The hint may name a used slot.** The code moves the hint to slot `i + 1`
  only when that slot is free; otherwise the old hint stays, even though it
  now names a used slot. The invariant therefore only says that the hint
  names *a* slot. Malloc tests the hinted slot's bit before taking it, so a
  stale hint never leads to a wrong allocation.
- **The bitmap and the slots can fill what is left exactly.** The comment
  above the capacity formula derives a strict bound, `used + maxn * step <
  left`. The formula `((left * 8) - 7) / (1 + step * 8)` keeps only "at
  most": bitmap bytes plus slot bytes never exceed `left`
  (`FPool.Capacity`), but they can equal it. 520 bytes at address 8 with
  8-byte steps leave 464 bytes after the header, and the 57 slots the formula
  gives take 8 bitmap bytes and 456 slot bytes, exactly 464
  (`ExactFitExample`). Nothing is lost by this, since the slots still end
  inside the buffer.
- **The capacity is not always the largest that fits.** The formula can give
  one slot less than fits. With 968 bytes after the header, 16-byte steps and
  8-byte alignment, it gives 59 slots, while 60 would fit exactly
  (`CapacityExample`).
- **A buffer with room for one slot can be refused.** Once the data start is
  rounded up to the alignment, a buffer that has room for one slot can still
  be refused (`RefusesOneSlotExample`).

The model therefore promises that the chosen layout fits, with the capacity
the formula gives, and neither a strict margin nor the largest count.

## Model

| member | source | states |
|---|---|---|
| Align.AlignUp | src/memory/fpool.c:279 | `tb_align(x, a)`: the least multiple of `a` that is at least `x` |
| Align.AlignPow2 | src/memory/fpool.c:255 | `tb_align_pow2(x)`: the least power of two that is at least `x` |
| Bitmap.BitMacro | src/memory/fpool.c:45 | `Bit`, the model of `tb_fpool_used_bset`, is exactly the macro's test `used[i >> 3] & (0x1 << (i & 7))` |
| Bitmap.Set1 | src/memory/fpool.c:43 | `tb_fpool_used_set1` sets bit `i` and leaves every other bit as it was |
| Bitmap.Set0 | src/memory/fpool.c:44 | `tb_fpool_used_set0` clears bit `i` and leaves every other bit as it was |
| Bitmap.Set0Set1 | src/memory/fpool.c:43-44 | clearing a bit just set on a clear bit gives back the same bitmap |
| Bitmap.Set1Set0 | src/memory/fpool.c:43-44 | setting a bit just cleared on a set bit gives back the same bitmap |
| Bitmap.CountSet1 | src/memory/fpool.c:186 | setting a clear bit below `n` raises the number of set bits below `n` by one |
| Bitmap.CountSet0 | src/memory/fpool.c:426 | clearing a set bit below `n` lowers the number of set bits below `n` by one |
| Bitmap.LowestClear | src/memory/fpool.c:163-182 | the reference search: it finds a clear bit in the range, every bit before it is set, and when it finds none, every bit in the range is set |
| Bitmap.LowestClearIs | src/memory/fpool.c:163-182 | a clear bit with only set bits before it is the one the search finds |
| Bitmap.CountBelowFindsClear | src/memory/fpool.c:368 | fewer set bits than slots means the search finds a free slot, so the scan's failure exits are never taken |
| Bitmap.WordFullBits | src/memory/fpool.c:165-175 | a word is all ones (`!(*p + 1)`) exactly when each of its 64 bits is set |
| Bitmap.FullWordsBits | src/memory/fpool.c:163-175 | when every skipped word is all ones, every bit below the scan position is set |
| Bitmap.FirstZero | src/memory/fpool.c:181 | `tb_bits_fb0_le` on a word that is not all ones: a clear bit of that word with every lower bit of the word set |
| Bitmap.ScanWords | src/memory/fpool.c:163-181 | the unrolled word scan finds exactly the lowest clear bit of the words it reads, or reports that all are set |
| FPool.BitmapBytes | src/memory/fpool.c:299 | `tb_align8(maxn) >> 3`: the fewest bytes that hold `maxn` bits |
| FPool.Words | src/memory/fpool.c:146 | `tb_align(maxn, 64) >> 6`: the fewest 64-bit words that hold `maxn` bits, the words the scan reads |
| FPool.SlotIndex | src/memory/fpool.c:116 | the index `(a - data) / step` of a slot address, below `maxn`, whose slot starts at `a` |
| FPool.SlotOffset | src/memory/fpool.c:116-117 | a slot address is non-NULL, a whole number of steps past `data`, and that number is its index |
| FPool.ResolveAlign | src/memory/fpool.c:255-256 | the resolved alignment is the least power of two that is at least the request and the word size |
| FPool.Plan | src/memory/fpool.c:249-301 | init's checks: NULL buffer, zero size or step, and alignment above 128 are refused. An accepted layout has a power-of-two alignment between 8 and 128 and the step rounded up to it. The header is at the first aligned address of the buffer, the bitmap at the first aligned address after the header, and the data at the first aligned address after the bitmap, all inside the buffer |
| FPool.Header | src/memory/fpool.c:279-283 | the step is rounded up to the alignment, and the bitmap starts at the first aligned address past the header, before the buffer end |
| FPool.Place | src/memory/fpool.c:295-301 | the capacity is positive, the data starts at the first aligned address past the bitmap, and `maxn * step` bytes of slots fit before the buffer end |
| FPool.Capacity | src/memory/fpool.c:285-296 | when the formula's count is positive, its bitmap bytes plus its slots take at most the bytes left after the header (possibly all of them), and it is the count the bound CapacityFits brackets. It is 0 only when one slot and its bit exceed that bound |
| FPool.CapacityRoom | src/memory/fpool.c:285-295 | any count within the formula's bound has room for its bitmap bytes and its slots |
| FPool.CapacityUnique | src/memory/fpool.c:295 | the bound CapacityFits admits exactly one count, the formula's |
| FPool.Init | src/memory/fpool.c:249-319 | init succeeds exactly when Plan returns a layout, and the pool takes that layout (which layouts those are is stated by FPool.PlanIff). The pool is then valid and empty, every bit and data byte is zero, the hint is the first slot, and the buffer holds at least the header and one slot |
| FPool.PlanIff | src/memory/fpool.c:249-301 | for a non-NULL buffer and a nonzero step, init's checks accept a layout exactly when it meets PlanFits, that is, the formula's capacity with the bitmap and the data at their aligned starts fits the buffer; the layout chosen is that one. A buffer with room for fewer slots than the formula asks can still be refused (FPoolProps.RefusesOneSlotExample) |
| FPool.PlanComplete | src/memory/fpool.c:252-301 | a layout that fits passes every check of init and is the one it lays out |
| FPool.ResolvePinned | src/memory/fpool.c:255-256 | the resolved alignment is the only power of two, at least the word size and the request, that is the word size or below twice the request |
| FPool.StepPinned | src/memory/fpool.c:279 | the rounded step is the only multiple of the alignment from the step up to, but not including, the step plus the alignment |
| FPool.HeaderComplete | src/memory/fpool.c:279-283 | a fitting layout with the rounded step and the header end that init computes is the one Header returns |
| FPool.PlaceComplete | src/memory/fpool.c:295-301 | a fitting placement with the formula's capacity and the first aligned data address passes the remaining checks and is the one Place returns |
| FPoolProps.InitAccepts | src/memory/fpool.c:249-319 | for a non-NULL buffer and a nonzero step, init succeeds exactly when some layout meets PlanFits, that is, the formula's capacity with the bitmap and the data at their aligned starts fits the buffer. A buffer with room for fewer slots can still be refused (FPoolProps.RefusesOneSlotExample) |
| FPool.Clear | src/memory/fpool.c:333-358 | a dead handle is left alone. A live pool keeps its layout, and its size, bitmap, data and hint become those of a fresh pool |
| FPool.Exit | src/memory/fpool.c:320-331 | the pool is cleared and its header fields (magic, alignment, step, capacity, count, region addresses, hint) become zero, so the handle no longer carries the magic |
| FPool.NextHint | src/memory/fpool.c:189-190 | after slot `i` is handed out, the hint moves to slot `i + 1` exactly when that slot exists and is free, otherwise it stays. If it named a slot before, it still does |
| FPool.Take | src/memory/fpool.c:119-126 | taking a free slot sets its bit, moves the hint to the next slot only when that slot is free, keeps the pool well formed and adds one to the number of set bits; `size` is updated by the caller |
| FPool.MallocPred | src/memory/fpool.c:111-137 | the hint path fails with nothing changed exactly when the hinted slot is used. Otherwise it hands out the hinted slot and takes it |
| FPool.MallocFind | src/memory/fpool.c:140-194 | the find path fails with nothing changed exactly when no slot below `maxn` is free. Otherwise it hands out the lowest free slot and takes it |
| FPool.SearchBeyondSlots | src/memory/fpool.c:177-182 | searching every bit of the words read, then refusing an index of at least `maxn`, agrees with searching the slots alone |
| FPool.FindSlot | src/memory/fpool.c:140-194 | the word-scan implementation of the find path returns what `MallocFind` returns, and a slot that was free |
| FPool.MallocLive | src/memory/fpool.c:370-378 | with a free slot, malloc hands out the hinted slot when it is free, else the lowest free slot. The slot was free and is now used, and the count rises by one |
| FPool.Malloc | src/memory/fpool.c:360-389 | NULL with nothing changed on a dead handle or a full pool. On a live pool with room the call always succeeds and chooses the slot as MallocLive does; only that slot's bit, the hint and the count change |
| FPool.Malloc0 | src/memory/fpool.c:390-404 | the result is the same as malloc. On NULL nothing changes; otherwise the handed-out slot's bytes are zero and every other slot's bytes are unchanged |
| FPool.ZeroSlot | src/memory/fpool.c:400 | `tb_memset(p, 0, step)`: the slot's bytes become zero, every other slot and the header are unchanged, and the pool stays valid |
| FPool.FreeAcceptsSlots | src/memory/fpool.c:415-417 | free's range, alignment and step tests accept exactly the slot start addresses |
| FPool.Release | src/memory/fpool.c:425-432 | freeing a used slot clears its bit, makes it the hint and lowers the count by one, keeping the pool valid |
| FPool.Free | src/memory/fpool.c:405-436 | false with nothing changed on a dead handle, an empty pool or an address that is not a slot start. Freeing a used slot changes only its bit, the hint and the count; freeing a free slot returns true and changes nothing |
| FPoolProps.SlotsDisjoint | src/memory/fpool.c:299-301 | two different slots of the data region never overlap |
| FPoolProps.MallocBlock | src/memory/fpool.c:360-389 | a block malloc hands out is aligned, lies inside the data region, was free and is now used |
| FPoolProps.MallocThenFree | src/memory/fpool.c:405-436 | freeing the block malloc just handed out restores the pool, except that the hint names that block |
| FPoolProps.FreeThenMalloc | src/memory/fpool.c:428-429 | after a free of a used slot, the next malloc hands back that very slot through the hint |
| FPoolProps.MallocFromPrefix | src/memory/fpool.c:114-126 | when slots `0 .. k` are used and the hint names slot `k`, malloc hands out slot `k` through the hint |
| FPoolProps.PrefixGrows | src/memory/fpool.c:125-126 | after slot `k` is handed out, slots `0 .. k+1` are used and the hint names slot `k + 1` when it exists |
| FPoolProps.SequentialStep | src/memory/fpool.c:360-389 | one malloc on a pool used in order hands out the next slot and keeps the pool used in order |
| FPoolProps.FullRefuses | src/memory/fpool.c:368 | a pool with every slot used refuses malloc and stays as it was |
| FPoolProps.SequentialRun | src/memory/fpool.c:360-389 | `n` mallocs in a row on a pool used in order hand out slot after slot, then NULL |
| FPoolProps.InitPrefix | src/memory/fpool.c:303-307 | a freshly initialised pool has no slot used and its hint at slot 0 |
| FPoolProps.ClearPrefix | src/memory/fpool.c:343-349 | a cleared pool has no slot used and its hint at slot 0 |
| FPoolProps.FreshRun | src/memory/fpool.c:303-307 | a fresh or cleared pool hands out `data, data + step, ...` in order for its `maxn` slots, then NULL |
| FPoolProps.ClearRestoresInit | src/memory/fpool.c:333-349 | clearing a live pool gives exactly the pool init made over the same layout |
| FPoolProps.ClearIdempotent | src/memory/fpool.c:333-358 | clearing twice is clearing once |
| FPoolProps.UseAfterExit | src/memory/fpool.c:320-331 | after exit, malloc, malloc0, free, clear and exit are all refused no-ops |
| FPoolProps.CapacityExample | src/memory/fpool.c:295 | 968 bytes after the header with 16-byte steps give 59 slots, though 60 would fit |
| FPoolProps.ExactFitExample | src/memory/fpool.c:285-301 | 464 bytes after the header with 8-byte steps give 57 slots whose bitmap and slots fill those bytes exactly, and the layout is accepted |
| FPoolProps.AlignedPlan | src/memory/fpool.c:259-264 | a buffer whose start is already on the resolved alignment is used from its first byte |
| FPoolProps.HeaderExample | src/memory/fpool.c:279-283 | for 1024 bytes at address 8 with 16-byte steps and 8-byte alignment, the bitmap starts at 64 |
| FPoolProps.InitExample | src/memory/fpool.c:249-319 | init accepts 1024 bytes at address 8 with 16-byte steps and 8-byte alignment, with 59 slots, the bitmap at 64 and the data at 72 |
| FPoolProps.RefusesOneSlotExample | src/memory/fpool.c:299-301 | a buffer with room for one 128-byte slot is refused once the data start is aligned to 128 |

## Left out

- `src/stream/gstream/http.c` and `src/tbox/platform/deprecated/aicp.c`: the
  first forwards stream calls to an HTTP handle, and the second selects a
  proactor engine at compile time. Neither contains allocator logic.
- The byte-wise `tb_fpool_malloc_find` under `#else`
  (src/memory/fpool.c:196-242) is compiled out. Only the word-scan variant is
  modelled.
- The debug statistics (`info` counters) and `tb_fpool_dump` are left out.
  They only count and print.
- A NULL handle is not modelled, since a handle here is a value. The
  magic-number check is modelled: a handle whose magic is gone is refused.
- The header's bit-field packing and the machine pointer casts are not
  modelled. The header is a record with a constant size of 56 bytes.
- `tb_size_t` overflow is not modelled: integers are unbounded. This includes
  `left << 3` in the capacity formula and `maxn * step`.
- 32-bit targets, whose scan reads 32-bit words, and big-endian targets are not
  modelled.
- `tb_align`, `tb_align_pow2`, `tb_bits_fb0_le` and `tb_memset` come from other
  files and are not part of this model. They are given their arithmetic
  meaning: round up, next power of two, lowest clear bit, fill with zero.
- FPool.Free: a double free returns true and changes nothing. This assumes how
  the release build of `tb_assert_return_val` behaves; its definition is not
  part of this model.
- FPool.Free: the mask `& (align - 1)` is written `% align`. The two agree
  because the alignment is a power of two.
- FPool.Init: on a failure after the buffer has been zeroed and the header
  partly written (src/memory/fpool.c:267-301), the model returns None and
  does not model those writes.
- FPool.Exit: the zeroed header is modelled as zeroed fields. The bytes of the
  dead header are not modelled.

=== FILE: align.dfy ===
/**
  The alignment helpers the pool relies on: rounding up to a multiple
  (`tb_align`, `tb_align8`) and rounding up to a power of two
  (`tb_align_pow2`). They are library macros outside the pool's source, so
  they are given their plain arithmetic meaning here, on unbounded integers.
*/
module Align {

  /** True iff `n` is one of 1, 2, 4, 8, ... */
  predicate IsPow2(n: nat)
    decreases n
  {
    n == 1 || (n >= 2 && n % 2 == 0 && IsPow2(n / 2))
  }

  /** Rounds `x` up to a multiple of `a`: the least multiple of `a` that is not below `x`. */
  function AlignUp(x: nat, a: nat): (r: nat)
    requires a > 0
    ensures r % a == 0
    ensures x <= r < x + a
  {
    var q := (x + a - 1) / a;
    MulMod(q, a);
    q * a
  }

  /** Rounds `x` up to a power of two: the least power of two that is not below `x`. */
  function AlignPow2(x: nat): (r: nat)
    ensures IsPow2(r)
    ensures x <= r
    ensures x >= 1 ==> r < 2 * x
    decreases x
  {
    if x <= 1 then 1 else 2 * AlignPow2((x + 1) / 2)
  }

  lemma MulMod(k: nat, a: nat)
    requires a > 0
    ensures (k * a) % a == 0
  {
    var r := (k * a) % a;
    var q := (k * a) / a;
    assert k * a == q * a + r;
    var d := k - q;
    assert d * a == r by { assert d * a == k * a - q * a; }
  }

  /** Divisibility is transitive: a multiple of `a` is a multiple of every divisor of `a`. */
  lemma ModTrans(x: nat, a: nat, b: nat)
    requires a > 0 && b > 0
    requires x % a == 0 && a % b == 0
    ensures x % b == 0
  {
    var k := x / a;
    var j := a / b;
    assert x == k * a;
    assert a == j * b;
    assert x == (k * j) * b;
    MulMod(k * j, b);
  }

  /** A multiple of `a` stays a multiple after adding `i` copies of a multiple of `a`. */
  lemma ModAddMul(x: nat, i: nat, s: nat, a: nat)
    requires a > 0
    requires x % a == 0 && s % a == 0
    ensures (x + i * s) % a == 0
  {
    var k := x / a;
    var j := s / a;
    assert x == k * a;
    assert s == j * a;
    assert i * s == (i * j) * a;
    assert x + i * s == (k + i * j) * a;
    MulMod(k + i * j, a);
  }

  /** Of two powers of two, the smaller divides the larger. */
  lemma {:induction false} Pow2Divides(a: nat, b: nat)
    requires IsPow2(a) && IsPow2(b) && b <= a
    ensures a % b == 0
    decreases a
  {
    if b == 1 {
    } else {
      assert a != 1;
      Pow2Divides(a / 2, b / 2);
      var k := (a / 2) / (b / 2);
      assert a / 2 == k * (b / 2);
      assert a == k * b;
      MulMod(k, b);
    }
  }

  /** Of two distinct powers of two, the larger is at least twice the smaller. */
  lemma Pow2Gap(a: nat, b: nat)
    requires IsPow2(a) && IsPow2(b) && a < b
    ensures 2 * a <= b
  {
    Pow2Divides(b, a);
    DivMul(b, a);
    var k := b / a;
    if k < 2 {
      MulLe(k, 1, a);
    }
    MulLe(2, k, a);
  }

  /** The slot that starts `i` steps in ends no later than `n` steps in, for `i < n`. */
  lemma SlotFits(i: nat, n: nat, s: nat)
    requires i < n
    ensures i * s + s <= n * s
  {
    var d := n - i;
    assert n * s == i * s + d * s;
    assert d * s == (d - 1) * s + s;
  }

  /** The converse of SlotFits for a positive step. */
  lemma SlotBelow(k: nat, n: nat, s: nat)
    requires s > 0
    requires k * s + s <= n * s
    ensures k < n
  {
  }

  lemma MulDiv(i: nat, s: nat)
    requires s > 0
    ensures (i * s) / s == i
  {
    MulMod(i, s);
    var q := (i * s) / s;
    assert i * s == q * s;
    assert (i - q) * s == 0;
  }

  lemma DivMul(x: nat, s: nat)
    requires s > 0
    requires x % s == 0
    ensures (x / s) * s == x
  {
  }

  /** Integer division rounds down: `x / d` is the largest `n` with `n * d <= x`. */
  lemma DivBounds(x: nat, d: nat)
    requires d > 0
    ensures (x / d) * d <= x < (x / d) * d + d
  {
  }

  /** Multiplying by the same factor keeps the order. */
  lemma MulLe(x: nat, y: nat, a: nat)
    requires x <= y
    ensures x * a <= y * a
  {
    assert y * a == x * a + (y - x) * a;
  }

  /** The converse of MulLe for a strict order. */
  lemma MulLtInv(x: nat, y: nat, a: nat)
    ensures x * a < y * a ==> x < y
  {
    if x >= y {
      MulLe(y, x, a);
    }
  }

  /** A division result is the one quotient whose multiple brackets the dividend. */
  lemma DivUnique(y: nat, a: nat, q: nat)
    requires a > 0
    requires q * a <= y < q * a + a
    ensures y / a == q
  {
    var d := y / a;
    DivBounds(y, a);
    assert (q + 1) * a == q * a + a;
    assert (d + 1) * a == d * a + a;
    MulLtInv(d, q + 1, a);
    MulLtInv(q, d + 1, a);
  }

  /** Rounding up any `x` in `(k - 1) * a .. k * a` gives `k * a`. */
  lemma AlignUpExact(x: nat, a: nat, k: nat)
    requires a > 0 && k > 0
    requires (k - 1) * a < x <= k * a
    ensures AlignUp(x, a) == k * a
  {
    assert (k - 1) * a + a == k * a;
    DivUnique(x + a - 1, a, k);
  }
}

=== FILE: bitmap.dfy ===
/**
  The pool's used-bitmap. Slot `i` owns bit `i % 8` of byte `i / 8`
  (the macros tb_fpool_used_set1, tb_fpool_used_set0 and tb_fpool_used_bset);
  a set bit means the slot is handed out. The bitmap is searched a machine word
  at a time for its lowest clear bit (tb_fpool_malloc_find). The target is a
  64-bit little-endian machine, so a word is eight consecutive bytes and bit
  `j` of a word is bit `j % 8` of its byte `j / 8`.
*/
module Bitmap {
  import opened Options

  /** Bytes and bits in a machine word (TB_CPU_BITBYTE and its bit count). */
  const WordBytes: nat := 8
  const WordBits: nat := 64

  // ---------------------------------------------------------------------------
  // One byte

  /** `0x1 << s`, the mask of bit `s` of a byte. */
  function Mask(s: nat): bv8
    requires s < 8
  {
    match s
    case 0 => 0x01
    case 1 => 0x02
    case 2 => 0x04
    case 3 => 0x08
    case 4 => 0x10
    case 5 => 0x20
    case 6 => 0x40
    case _ => 0x80
  }

  predicate ByteBit(b: bv8, s: nat)
    requires s < 8
  {
    b & Mask(s) != 0
  }

  function ByteSet1(b: bv8, s: nat): bv8
    requires s < 8
  {
    b | Mask(s)
  }

  function ByteSet0(b: bv8, s: nat): bv8
    requires s < 8
  {
    b & !Mask(s)
  }

  lemma ByteSet1Bit(b: bv8, s: nat, t: nat)
    requires s < 8 && t < 8
    ensures ByteBit(ByteSet1(b, s), t) == (s == t || ByteBit(b, t))
  {
  }

  lemma ByteSet0Bit(b: bv8, s: nat, t: nat)
    requires s < 8 && t < 8
    ensures ByteBit(ByteSet0(b, s), t) == (s != t && ByteBit(b, t))
  {
  }

  /** A byte whose eight bits are all set is 0xFF. */
  lemma ByteAllSet(b: bv8)
    requires forall t | 0 <= t < 8 :: ByteBit(b, t)
    ensures b == 0xFF
  {
    assert ByteBit(b, 0) && ByteBit(b, 1) && ByteBit(b, 2) && ByteBit(b, 3);
    assert ByteBit(b, 4) && ByteBit(b, 5) && ByteBit(b, 6) && ByteBit(b, 7);
  }

  /** A byte whose eight bits are all clear is 0. */
  lemma ByteAllClear(b: bv8)
    requires forall t | 0 <= t < 8 :: !ByteBit(b, t)
    ensures b == 0
  {
    assert !ByteBit(b, 0) && !ByteBit(b, 1) && !ByteBit(b, 2) && !ByteBit(b, 3);
    assert !ByteBit(b, 4) && !ByteBit(b, 5) && !ByteBit(b, 6) && !ByteBit(b, 7);
  }

  lemma FullByteBit(t: nat)
    requires t < 8
    ensures ByteBit(0xFF, t)
  {
  }

  lemma ZeroByteBit(t: nat)
    requires t < 8
    ensures !ByteBit(0, t)
  {
  }

  // ---------------------------------------------------------------------------
  // Bits of a byte sequence

  /** tb_fpool_used_bset: whether bit `i` is set. */
  predicate Bit(bm: seq<bv8>, i: nat)
    requires i < 8 * |bm|
  {
    ByteBit(bm[i / 8], i % 8)
  }

  /**
    Bit is the test tb_fpool_used_bset writes, used[i >> 3] & (0x1 << (i & 7)),
    with the shift and the masks spelled out on natural numbers.
  */
  lemma BitMacro(bm: seq<bv8>, i: nat)
    requires i < 8 * |bm|
    ensures Bit(bm, i) <==> bm[i / 8] & ((1 as bv8) << (i % 8)) != 0
  {
    var t := i % 8;
    assert Mask(t) == (1 as bv8) << t by {
      if t == 0 {} else if t == 1 {} else if t == 2 {} else if t == 3 {}
      else if t == 4 {} else if t == 5 {} else if t == 6 {} else {}
    }
  }

  /** tb_fpool_used_set1: sets bit `i` and leaves every other bit alone. */
  function Set1(bm: seq<bv8>, i: nat): (r: seq<bv8>)
    requires i < 8 * |bm|
    ensures |r| == |bm|
    ensures Bit(r, i)
    ensures forall j | 0 <= j < 8 * |bm| && j != i :: Bit(r, j) == Bit(bm, j)
  {
    var r := bm[i / 8 := ByteSet1(bm[i / 8], i % 8)];
    ByteSet1Bit(bm[i / 8], i % 8, i % 8);
    assert forall j | 0 <= j < 8 * |bm| && j != i :: Bit(r, j) == Bit(bm, j) by {
      forall j | 0 <= j < 8 * |bm| && j != i
        ensures Bit(r, j) == Bit(bm, j)
      {
        if j / 8 == i / 8 {
          ByteSet1Bit(bm[i / 8], i % 8, j % 8);
        }
      }
    }
    r
  }

  /** tb_fpool_used_set0: clears bit `i` and leaves every other bit alone. */
  function Set0(bm: seq<bv8>, i: nat): (r: seq<bv8>)
    requires i < 8 * |bm|
    ensures |r| == |bm|
    ensures !Bit(r, i)
    ensures forall j | 0 <= j < 8 * |bm| && j != i :: Bit(r, j) == Bit(bm, j)
  {
    var r := bm[i / 8 := ByteSet0(bm[i / 8], i % 8)];
    ByteSet0Bit(bm[i / 8], i % 8, i % 8);
    assert forall j | 0 <= j < 8 * |bm| && j != i :: Bit(r, j) == Bit(bm, j) by {
      forall j | 0 <= j < 8 * |bm| && j != i
        ensures Bit(r, j) == Bit(bm, j)
      {
        if j / 8 == i / 8 {
          ByteSet0Bit(bm[i / 8], i % 8, j % 8);
        }
      }
    }
    r
  }

  /** Bit `t` of byte `k` is bit `8 * k + t` of the sequence. */
  lemma BitOfByte(bm: seq<bv8>, k: nat, t: nat)
    requires k < |bm| && t < 8
    ensures Bit(bm, 8 * k + t) == ByteBit(bm[k], t)
  {
    assert (8 * k + t) / 8 == k && (8 * k + t) % 8 == t;
  }

  /** Two byte sequences of equal length with the same bits are equal. */
  lemma SameBitsEqual(a: seq<bv8>, b: seq<bv8>)
    requires |a| == |b|
    requires forall j | 0 <= j < 8 * |a| :: Bit(a, j) == Bit(b, j)
    ensures a == b
  {
    forall k | 0 <= k < |a|
      ensures a[k] == b[k]
    {
      forall t | 0 <= t < 8
        ensures ByteBit(a[k], t) == ByteBit(b[k], t)
      {
        BitOfByte(a, k, t);
        BitOfByte(b, k, t);
      }
      SameByteBits(a[k], b[k]);
    }
  }

  /** Setting a clear bit and clearing it again gives back the same bitmap. */
  lemma Set0Set1(bm: seq<bv8>, i: nat)
    requires i < 8 * |bm| && !Bit(bm, i)
    ensures Set0(Set1(bm, i), i) == bm
  {
    SameBitsEqual(Set0(Set1(bm, i), i), bm);
  }

  /** Clearing a set bit and setting it again gives back the same bitmap. */
  lemma Set1Set0(bm: seq<bv8>, i: nat)
    requires i < 8 * |bm| && Bit(bm, i)
    ensures Set1(Set0(bm, i), i) == bm
  {
    SameBitsEqual(Set1(Set0(bm, i), i), bm);
  }

  lemma SameByteBits(x: bv8, y: bv8)
    requires forall t | 0 <= t < 8 :: ByteBit(x, t) == ByteBit(y, t)
    ensures x == y
  {
    assert ByteBit(x, 0) == ByteBit(y, 0) && ByteBit(x, 1) == ByteBit(y, 1);
    assert ByteBit(x, 2) == ByteBit(y, 2) && ByteBit(x, 3) == ByteBit(y, 3);
    assert ByteBit(x, 4) == ByteBit(y, 4) && ByteBit(x, 5) == ByteBit(y, 5);
    assert ByteBit(x, 6) == ByteBit(y, 6) && ByteBit(x, 7) == ByteBit(y, 7);
  }

  /** `n` zero bytes: every bit clear. */
  function Zeros(n: nat): (r: seq<bv8>)
    ensures |r| == n
    ensures forall j | 0 <= j < 8 * n :: !Bit(r, j)
  {
    var r := seq(n, _ => 0 as bv8);
    assert forall j | 0 <= j < 8 * n :: !Bit(r, j) by {
      forall j | 0 <= j < 8 * n
        ensures !Bit(r, j)
      {
        ZeroByteBit(j % 8);
      }
    }
    r
  }

  /** tb_memset(s + lo, 0, n): bytes `lo .. lo + n` become 0, the others keep their value. */
  function ZeroRange(s: seq<bv8>, lo: nat, n: nat): (r: seq<bv8>)
    requires lo + n <= |s|
    ensures |r| == |s|
    ensures forall k | 0 <= k < |s| :: r[k] == (if lo <= k < lo + n then 0 else s[k])
  {
    s[..lo] + Zeros(n) + s[lo + n..]
  }

  // ---------------------------------------------------------------------------
  // Counting and searching

  /** The number of set bits among bits `0 .. n`. */
  function Count(bm: seq<bv8>, n: nat): (c: nat)
    requires n <= 8 * |bm|
    ensures c <= n
    ensures c == n ==> forall j | 0 <= j < n :: Bit(bm, j)
  {
    if n == 0 then 0 else Count(bm, n - 1) + (if Bit(bm, n - 1) then 1 else 0)
  }

  /** The lowest clear bit in `lo .. hi`, if any: the reference search. */
  function LowestClear(bm: seq<bv8>, lo: nat, hi: nat): (r: Option<nat>)
    requires lo <= hi <= 8 * |bm|
    ensures r.Some? ==> lo <= r.value < hi && !Bit(bm, r.value)
    ensures r.Some? ==> forall j | lo <= j < r.value :: Bit(bm, j)
    ensures r.None? ==> forall j | lo <= j < hi :: Bit(bm, j)
    decreases hi - lo
  {
    if lo == hi then None
    else if !Bit(bm, lo) then Some(lo)
    else LowestClear(bm, lo + 1, hi)
  }

  /** Any clear bit `i` in `lo .. hi` with every bit below it in the range set is the one the reference search returns. */
  lemma LowestClearIs(bm: seq<bv8>, lo: nat, hi: nat, i: nat)
    requires lo <= i < hi <= 8 * |bm|
    requires !Bit(bm, i)
    requires forall j | lo <= j < i :: Bit(bm, j)
    ensures LowestClear(bm, lo, hi) == Some(i)
  {
  }

  /** Bits outside a prefix do not change the count over that prefix. */
  lemma {:induction false} CountFrame(a: seq<bv8>, b: seq<bv8>, n: nat)
    requires n <= 8 * |a| && n <= 8 * |b|
    requires forall j | 0 <= j < n :: Bit(a, j) == Bit(b, j)
    ensures Count(a, n) == Count(b, n)
  {
    if n > 0 {
      CountFrame(a, b, n - 1);
    }
  }

  /** Setting a clear bit below `n` adds exactly one to the count over `0 .. n`. */
  lemma {:induction false} CountSet1(bm: seq<bv8>, i: nat, n: nat)
    requires i < n <= 8 * |bm|
    requires !Bit(bm, i)
    ensures Count(Set1(bm, i), n) == Count(bm, n) + 1
  {
    var r := Set1(bm, i);
    if n - 1 == i {
      CountFrame(r, bm, n - 1);
    } else {
      CountSet1(bm, i, n - 1);
    }
  }

  /** Clearing a set bit below `n` takes exactly one from the count over `0 .. n`. */
  lemma {:induction false} CountSet0(bm: seq<bv8>, i: nat, n: nat)
    requires i < n <= 8 * |bm|
    requires Bit(bm, i)
    ensures Count(Set0(bm, i), n) + 1 == Count(bm, n)
  {
    var r := Set0(bm, i);
    if n - 1 == i {
      CountFrame(r, bm, n - 1);
    } else {
      CountSet0(bm, i, n - 1);
    }
  }

  /** With every bit below `n` clear the count is 0. */
  lemma {:induction false} CountAllClear(bm: seq<bv8>, n: nat)
    requires n <= 8 * |bm|
    requires forall j | 0 <= j < n :: !Bit(bm, j)
    ensures Count(bm, n) == 0
  {
    if n > 0 {
      CountAllClear(bm, n - 1);
    }
  }

  /** Fewer set bits than positions means the reference search over those positions succeeds. */
  lemma CountBelowFindsClear(bm: seq<bv8>, n: nat)
    requires n <= 8 * |bm|
    requires Count(bm, n) < n
    ensures LowestClear(bm, 0, n).Some?
  {
  }

  // ---------------------------------------------------------------------------
  // Words

  /** Word `w` is all ones (`!(*p + 1)` in the scan). */
  predicate WordFull(bm: seq<bv8>, w: nat)
    requires (w + 1) * WordBytes <= |bm|
  {
    forall k | w * WordBytes <= k < (w + 1) * WordBytes :: bm[k] == 0xFF
  }

  /** A word is all ones exactly when its 64 bits are all set. */
  lemma WordFullBits(bm: seq<bv8>, w: nat)
    requires (w + 1) * WordBytes <= |bm|
    ensures WordFull(bm, w) <==> forall j | w * WordBits <= j < (w + 1) * WordBits :: Bit(bm, j)
  {
    if WordFull(bm, w) {
      forall j | w * WordBits <= j < (w + 1) * WordBits
        ensures Bit(bm, j)
      {
        assert bm[j / 8] == 0xFF;
        FullByteBit(j % 8);
      }
    } else {
      var k :| w * WordBytes <= k < (w + 1) * WordBytes && bm[k] != 0xFF;
      var b := bm[k];
      if forall t | 0 <= t < 8 :: ByteBit(b, t) {
        ByteAllSet(b);
      }
      var t :| 0 <= t < 8 && !ByteBit(b, t);
      assert !Bit(bm, 8 * k + t);
    }
  }

  /** Words `0 .. p` all ones means bits `0 .. p * 64` all set. */
  lemma FullWordsBits(bm: seq<bv8>, p: nat)
    requires p * WordBytes <= |bm|
    requires forall w | 0 <= w < p :: WordFull(bm, w)
    ensures forall j | 0 <= j < p * WordBits :: Bit(bm, j)
  {
    forall j | 0 <= j < p * WordBits
      ensures Bit(bm, j)
    {
      var w := j / WordBits;
      WordFullBits(bm, w);
    }
  }

  /** tb_bits_fb0_le: the position of the lowest clear bit of a word that is not all ones. */
  function FirstZero(bm: seq<bv8>, w: nat): (j: nat)
    requires (w + 1) * WordBytes <= |bm|
    requires !WordFull(bm, w)
    ensures j < WordBits
    ensures !Bit(bm, w * WordBits + j)
    ensures forall k | w * WordBits <= k < w * WordBits + j :: Bit(bm, k)
  {
    WordFullBits(bm, w);
    var r := LowestClear(bm, w * WordBits, (w + 1) * WordBits);
    r.value - w * WordBits
  }

  /**
    The search of tb_fpool_malloc_find over the `m` words of the bitmap: skip
    words that are all ones, eight per round while eight remain, then one at a
    time, and take the lowest clear bit of the first word that has one. It finds
    exactly what the bit-by-bit reference search finds.
  */
  method ScanWords(bm: seq<bv8>, m: nat) returns (r: Option<nat>)
    requires m * WordBytes <= |bm|
    ensures r == LowestClear(bm, 0, m * WordBits)
    ensures r.Some? ==> r.value < m * WordBits && !Bit(bm, r.value)
    ensures r.Some? ==> forall j | 0 <= j < r.value :: Bit(bm, j)
    ensures r.None? ==> forall j | 0 <= j < m * WordBits :: Bit(bm, j)
  {
    var p := 0;
    while p + 7 < m
      invariant p <= m
      invariant forall w | 0 <= w < p :: WordFull(bm, w)
    {
      var k := 0;
      while k < 8 && WordFull(bm, p + k)
        invariant k <= 8
        invariant forall w | 0 <= w < p + k :: WordFull(bm, w)
      {
        k := k + 1;
      }
      if k < 8 {
        p := p + k;
        break;
      }
      p := p + 8;
    }
    while p < m && WordFull(bm, p)
      invariant p <= m
      invariant forall w | 0 <= w < p :: WordFull(bm, w)
    {
      p := p + 1;
    }
    FullWordsBits(bm, p);
    if p >= m {
      r := None;
      return;
    }
    var i := p * WordBits + FirstZero(bm, p);
    LowestClearIs(bm, 0, m * WordBits, i);
    r := Some(i);
  }
}

=== FILE: fpool.dfy ===
/**
  The fixed-size block allocator of src/memory/fpool.c.

  A caller-owned buffer is carved, in this order, into the pool descriptor
  (the header), the used-bitmap and the data region of `maxn` slots of `step`
  bytes each; every region starts on the pool's alignment. Slots are handed
  out by `Malloc` (first the remembered hint slot, otherwise the lowest free
  slot) and taken back by `Free`.

  Addresses are natural numbers (0 is NULL). A `Pool` value is the header
  together with the current contents of the bitmap region (bytes `used ..
  data`) and of the data region, slot by slot (slot `i` is the `step` bytes
  at `data + i * step`). The source mutates the buffer in place; here each
  operation returns the new `Pool`, and its C return value in a `Ret`.
*/
module FPool {
  import opened Options
  import opened Align
  import opened Bitmap

  /** TB_FPOOL_MAGIC: the header of a live pool carries it. */
  const Magic: nat := 0xdead

  /** TB_FPOOL_ALIGN_MAXN: the largest alignment a pool accepts. */
  const AlignMax: nat := 128

  /** sizeof(tb_fpool_t) in a release build on a 64-bit target: one word of bit-fields and six words. */
  const HeaderBytes: nat := 56

  /** The header fields of tb_fpool_t with the buffer bytes the pool manages. */
  datatype Pool = Pool(
    magic: nat,
    align: nat,
    step: nat,
    maxn: nat,
    size: nat,
    data: nat,
    used: nat,
    pred: nat,
    bitmap: seq<bv8>,
    slots: seq<seq<bv8>>)

  /** The pool after a call, with the call's return value. */
  datatype Ret<T> = Ret(pool: Pool, value: T)

  /** Bitmap bytes for `n` slots: tb_align8(n) >> 3, that is n / 8 rounded up. */
  function BitmapBytes(n: nat): (r: nat)
    ensures n <= 8 * r < n + 8
  {
    DivMul(AlignUp(n, 8), 8);
    AlignUp(n, 8) / 8
  }

  /** Machine words the scan reads for `n` slots: tb_align(n, 64) >> 6. */
  function Words(n: nat): (r: nat)
    ensures n <= r * WordBits < n + WordBits
  {
    DivMul(AlignUp(n, WordBits), WordBits);
    AlignUp(n, WordBits) / WordBits
  }

  /** The address `i` steps into a data region that starts at `data`. */
  function SlotStart(data: nat, step: nat, i: nat): nat
  {
    data + i * step
  }

  /** The address of slot `i`. */
  function SlotAddr(p: Pool, i: nat): nat
  {
    SlotStart(p.data, p.step, i)
  }

  /** `a` is the start of one of `maxn` slots of `step` bytes from `data`. */
  predicate SlotIn(data: nat, step: nat, maxn: nat, a: nat)
  {
    exists i | 0 <= i < maxn :: a == SlotStart(data, step, i)
  }

  /** `a` is the start of one of the pool's slots. */
  predicate IsSlot(p: Pool, a: nat)
  {
    SlotIn(p.data, p.step, p.maxn, a)
  }

  /** The slot that starts at `a`: the inverse of SlotAddr. */
  function SlotIndex(p: Pool, a: nat): (i: nat)
    requires p.step > 0 && IsSlot(p, a)
    ensures i < p.maxn && a == SlotAddr(p, i)
  {
    assert p.data <= a && (a - p.data) / p.step < p.maxn && a == SlotAddr(p, (a - p.data) / p.step) by {
      var k :| 0 <= k < p.maxn && a == SlotStart(p.data, p.step, k);
      MulDiv(k, p.step);
    }
    (a - p.data) / p.step
  }

  /** Every slot starts on the pool's alignment. */
  ghost predicate AlignedSlots(p: Pool)
  {
    p.align > 0 && forall i :: SlotStart(p.data, p.step, i) % p.align == 0
  }

  /** Everything a live pool keeps true except the count of used slots. */
  ghost predicate WellFormed(p: Pool)
  {
    && p.magic == Magic
    && IsPow2(p.align) && WordBytes <= p.align <= AlignMax
    && p.step > 0 && p.maxn > 0
    && 0 < p.used && p.used % WordBytes == 0 && AlignedSlots(p)
    && p.used + BitmapBytes(p.maxn) <= p.data
    && |p.bitmap| == p.data - p.used
    && Words(p.maxn) * WordBytes <= |p.bitmap|
    && p.maxn <= 8 * |p.bitmap|
    && |p.slots| == p.maxn
    && (forall i | 0 <= i < |p.slots| :: |p.slots[i]| == p.step)
    // the bits past the last slot, which the word scan reads, stay clear
    && (forall i | p.maxn <= i < 8 * |p.bitmap| :: !Bit(p.bitmap, i))
    // the hint names a slot (possibly a used one)
    && IsSlot(p, p.pred)
  }

  /** A live pool: well formed, and `size` is the number of used slots. */
  ghost predicate Valid(p: Pool)
  {
    WellFormed(p) && p.size == Count(p.bitmap, p.maxn)
  }

  /** What a handle can be: a live pool, or one whose magic is gone (after exit). */
  ghost predicate Handle(p: Pool)
  {
    p.magic == Magic ==> Valid(p)
  }

  /** Two pools with the same header layout and region sizes. */
  predicate SameLayout(p: Pool, q: Pool)
  {
    && p.magic == q.magic && p.align == q.align && p.step == q.step && p.maxn == q.maxn
    && p.data == q.data && p.used == q.used
    && |p.bitmap| == |q.bitmap| && |p.slots| == |q.slots|
  }

  /**
    The hint after slot `i` is handed out: the next slot when it exists and is
    free, otherwise the old hint, which then names a used slot.
  */
  function NextHint(p: Pool, i: nat): (h: nat)
    requires i < p.maxn <= 8 * |p.bitmap|
    // the hint keeps naming a slot
    ensures IsSlot(p, p.pred) ==> IsSlot(p, h)
    // it moves only to the next slot, and only when that slot is free
    ensures h != p.pred ==> i + 1 < p.maxn && !Bit(p.bitmap, i + 1) && h == SlotAddr(p, i + 1)
    // and it does move there then
    ensures i + 1 < p.maxn && !Bit(p.bitmap, i + 1) ==> h == SlotAddr(p, i + 1)
  {
    assert SlotAddr(p, i + 1) == SlotStart(p.data, p.step, i + 1);
    if i + 1 < p.maxn && !Bit(p.bitmap, i + 1) then SlotAddr(p, i + 1) else p.pred
  }

  /**
    `q` is `p` with the free slot `i` handed out: bit `i` was clear and is now
    set, no other bit changes, the hint moves as NextHint says, no other header
    field changes, the data bytes are untouched, and the pool is still well
    formed.
  */
  ghost predicate Takes(p: Pool, q: Pool, i: nat)
    requires WellFormed(p)
  {
    && i < p.maxn
    && !Bit(p.bitmap, i)
    && q == p.(bitmap := Set1(p.bitmap, i), pred := NextHint(p, i))
    && WellFormed(q)
  }

  // ---------------------------------------------------------------------------
  // Layout arithmetic

  /** BitmapBytes(n) bytes hold `n` bits, and so do the Words(n) words the scan reads. */
  lemma BitmapHoldsSlots(n: nat)
    ensures n <= 8 * BitmapBytes(n)
    ensures n <= Words(n) * WordBits
  {
  }

  /** A bitmap region of a whole number of words that holds BitmapBytes(n) bytes also holds the words the scan reads. */
  lemma WordsFit(d: nat, n: nat)
    requires d % WordBytes == 0
    requires BitmapBytes(n) <= d
    ensures Words(n) * WordBytes <= d
  {
  }

  /** Slot `i < maxn` is a slot, starts on the pool's alignment, lies inside the data region and has index `i`. */
  lemma SlotChecks(p: Pool, i: nat)
    requires p.step > 0 && AlignedSlots(p)
    requires i < p.maxn
    ensures IsSlot(p, SlotAddr(p, i))
    ensures SlotIndex(p, SlotAddr(p, i)) == i
    ensures p.data <= SlotAddr(p, i)
    ensures SlotAddr(p, i) + p.step <= p.data + p.maxn * p.step
    ensures SlotAddr(p, i) % p.align == 0
    ensures (SlotAddr(p, i) - p.data) % p.step == 0
  {
    SlotFits(i, p.maxn, p.step);
    MulMod(i, p.step);
    MulDiv(i, p.step);
  }

  /** A slot address is not NULL, and it is a whole number of steps, its index, past the data start. */
  lemma SlotOffset(p: Pool, a: nat)
    requires p.step > 0 && p.used > 0 && p.used <= p.data && IsSlot(p, a)
    ensures a != 0 && p.data <= a
    ensures (a - p.data) % p.step == 0
    ensures (a - p.data) / p.step == SlotIndex(p, a)
  {
    MulMod(SlotIndex(p, a), p.step);
  }

  // ---------------------------------------------------------------------------
  // tb_fpool_init

  /** Where tb_fpool_init puts things: the resolved alignment and step, the capacity, the bitmap and data starts. */
  datatype Layout = Layout(align: nat, step: nat, maxn: nat, used: nat, data: nat)

  /**
    The arithmetic of tb_fpool_init over the `size` bytes at address `base`:
    resolve the alignment, align the start, round the step, place the bitmap
    after the header, derive the capacity from ((left * 8) - 7) / (1 + step * 8),
    place the data region after the bitmap. None for a NULL buffer, a zero
    size or step, an alignment above 128, or a buffer too small for one slot
    with this layout.
  */
  function Plan(base: nat, size: nat, step: nat, align: nat): (r: Option<Layout>)
    ensures base == 0 || size == 0 || step == 0 ==> r.None?
    ensures align > AlignMax ==> r.None?
    ensures r.Some? ==> PlanFits(base, size, step, align, r.value)
  {
    if base == 0 || step == 0 || size == 0 then None
    else
      var a := ResolveAlign(align);
      if a > AlignMax then None
      else
        var byte := AlignUp(base, a) - base;
        if size < byte then None
        else
          var handle := base + byte;
          var left := size - byte;
          if left == 0 then None
          else Header(handle, handle + left, step, a)
  }

  /**
    The middle of tb_fpool_init, once the buffer start `handle` is aligned and
    the buffer ends at `end`: round the step, place the bitmap after the
    header, and refuse a buffer that ends there.
  */
  function Header(handle: nat, end: nat, step: nat, a: nat): (r: Option<Layout>)
    requires a > 0
    ensures r.Some? ==> r.value.step == AlignUp(step, a) && r.value.used == AlignUp(handle + HeaderBytes, a)
    ensures r.Some? ==> r.value.used < end && r.value.align == a
    ensures r.Some? ==> CapacityFits(end - r.value.used, r.value.maxn, r.value.step)
    ensures r.Some? ==> r.value.data % a == 0 && r.value.data == AlignUp(r.value.used + BitmapBytes(r.value.maxn), a)
    ensures r.Some? ==> r.value.used + BitmapBytes(r.value.maxn) <= r.value.data
    ensures r.Some? ==> r.value.data + r.value.maxn * r.value.step <= end
  {
    var st := AlignUp(step, a);
    var used := AlignUp(handle + HeaderBytes, a);
    if end <= used then None
    else Place(end, a, st, used)
  }

  /**
    The second half of tb_fpool_init's arithmetic, once the header is placed
    and the bitmap starts at `used`: the capacity, then the data start, then
    the check that the slots fit before `end`.
  */
  function Place(end: nat, a: nat, st: nat, used: nat): (r: Option<Layout>)
    requires a > 0 && used < end
    ensures r.Some? ==> r.value.align == a && r.value.step == st && r.value.used == used
    ensures r.Some? ==> CapacityFits(end - used, r.value.maxn, r.value.step)
    ensures r.Some? ==> r.value.data % a == 0 && r.value.data == AlignUp(used + BitmapBytes(r.value.maxn), a)
    ensures r.Some? ==> used + BitmapBytes(r.value.maxn) <= r.value.data
    ensures r.Some? ==> r.value.data + r.value.maxn * r.value.step <= end
  {
    var maxn := Capacity(end - used, st);
    if maxn == 0 then None
    else
      var data := AlignUp(used + BitmapBytes(maxn), a);
      if end <= data then None
      else if maxn * st > end - data then None
      else
        Some(Layout(a, st, maxn, used, data))
  }

  /**
    The capacity tb_fpool_init derives for `left` bytes after the header and
    slots of `st` bytes, ((left * 8) - 7) / (1 + step * 8): when positive, the
    count CapacityFits describes.
  */
  function Capacity(left: nat, st: nat): (n: nat)
    requires left > 0
    ensures n > 0 ==> CapacityFits(left, n, st)
    // the bitmap bytes and the slots fit in what is left, possibly exactly
    ensures n > 0 ==> BitmapBytes(n) + n * st <= left
    // 0 only when a single slot and its bit do not fit the formula's bound
    ensures n == 0 ==> left * 8 - 7 < 1 + st * 8
  {
    var q := (left * 8 - 7) / (1 + st * 8);
    QuotientBracket(left * 8 - 7, 1 + st * 8, q);
    if q > 0 then
      CapacityRoom(left, q, st);
      q
    else q
  }

  /** The floor quotient `q` of `y` by `d` brackets `y` between `q * d` and `(q + 1) * d`. */
  lemma QuotientBracket(y: nat, d: nat, q: nat)
    requires d > 0 && q == y / d
    ensures q * d <= y < (q + 1) * d
    ensures q == 0 ==> y < d
  {
    DivBounds(y, d);
    assert (q + 1) * d == q * d + d;
  }

  /** A count the capacity bound admits has room for its bitmap bytes and its slots. */
  lemma CapacityRoom(left: nat, n: nat, st: nat)
    requires CapacityFits(left, n, st)
    ensures BitmapBytes(n) + n * st <= left
  {
    assert n * (1 + st * 8) == n + 8 * (n * st);
  }

  /** The bound CapacityFits admits exactly one count: the formula's. */
  lemma CapacityUnique(left: nat, n: nat, st: nat)
    requires left > 0 && CapacityFits(left, n, st)
    ensures n == Capacity(left, st)
  {
    DivUnique(left * 8 - 7, 1 + st * 8, n);
  }

  /**
    `maxn` is the capacity the source derives for `left` bytes after the
    header: the largest count whose bits plus slots, in eighths of a byte,
    fit `left * 8 - 7`, and at least one.
  */
  predicate CapacityFits(left: nat, maxn: nat, st: nat)
  {
    && maxn > 0
    && maxn * (1 + st * 8) <= left * 8 - 7 < (maxn + 1) * (1 + st * 8)
  }

  /**
    What a layout tb_fpool_init accepts promises: the alignment is the least
    power of two not below the request and the word size; the step is the
    request rounded up to it; header, bitmap and data follow each other,
    aligned, inside the buffer; and `maxn` is the largest count whose bits
    and slots, counted in eighths of a byte less seven, fit what follows the
    header.
  */
  ghost predicate PlanFits(base: nat, size: nat, step: nat, align: nat, l: Layout)
  {
    && IsPow2(l.align) && WordBytes <= l.align <= AlignMax
    && align <= l.align && (l.align == WordBytes || l.align < 2 * align)
    && step <= l.step < step + l.align && l.step % l.align == 0
    && base + HeaderBytes <= l.used < base + size
    && l.used % l.align == 0 && l.data % l.align == 0
    // the header at the first aligned address of the buffer, the bitmap at the
    // first aligned address after the header, the data at the first aligned
    // address after the bitmap
    && l.used == AlignUp(AlignUp(base, l.align) + HeaderBytes, l.align)
    && l.data == AlignUp(l.used + BitmapBytes(l.maxn), l.align)
    && CapacityFits(base + size - l.used, l.maxn, l.step)
    && l.used + BitmapBytes(l.maxn) <= l.data
    && l.data + l.maxn * l.step <= base + size
  }

  /**
    Plan accepts exactly the layouts PlanFits describes: every layout it
    returns fits, and every fitting layout is the one it returns. The
    layout checks of tb_fpool_init therefore refuse a buffer exactly when
    the formula's capacity, with the bitmap and the data at their aligned
    starts, does not fit it; a buffer with room for fewer slots can still
    be refused.
  */
  lemma PlanIff(base: nat, size: nat, step: nat, align: nat, l: Layout)
    requires base > 0 && step > 0
    ensures Plan(base, size, step, align) == Some(l) <==> PlanFits(base, size, step, align, l)
  {
    if PlanFits(base, size, step, align, l) {
      PlanComplete(base, size, step, align, l);
    }
  }

  /** A layout that fits is the one Plan returns. */
  lemma PlanComplete(base: nat, size: nat, step: nat, align: nat, l: Layout)
    requires base > 0 && step > 0
    requires PlanFits(base, size, step, align, l)
    ensures Plan(base, size, step, align) == Some(l)
  {
    var a := l.align;
    ResolvePinned(align, a);
    var handle := AlignUp(base, a);
    assert handle + HeaderBytes <= l.used;
    StepPinned(step, a, l.step);
    HeaderComplete(handle, base + size, step, a, l);
  }

  /** A power of two that meets ResolveAlign's promises is the one it returns. */
  lemma ResolvePinned(align: nat, b: nat)
    requires IsPow2(b) && WordBytes <= b
    requires align <= b && (b == WordBytes || b < 2 * align)
    ensures ResolveAlign(align) == b
  {
    var a := ResolveAlign(align);
    if a < b {
      Pow2Gap(a, b);
    } else if b < a {
      Pow2Gap(b, a);
    }
  }

  /** The only multiple of `a` in `[step, step + a)` is `step` rounded up to `a`. */
  lemma StepPinned(step: nat, a: nat, s: nat)
    requires a > 0 && step > 0
    requires step <= s < step + a && s % a == 0
    ensures AlignUp(step, a) == s
  {
    DivMul(s, a);
    var k := s / a;
    assert (k - 1) * a + a == k * a;
    AlignUpExact(step, a, k);
  }

  /** A fitting layout whose step and header Header would compute is the one it returns. */
  lemma HeaderComplete(handle: nat, end: nat, step: nat, a: nat, l: Layout)
    requires a > 0 && step > 0 && l.align == a
    requires l.step == AlignUp(step, a) && l.used == AlignUp(handle + HeaderBytes, a)
    requires l.used < end && CapacityFits(end - l.used, l.maxn, l.step)
    requires l.data == AlignUp(l.used + BitmapBytes(l.maxn), a)
    requires l.data + l.maxn * l.step <= end
    ensures Header(handle, end, step, a) == Some(l)
  {
    CapacityUnique(end - l.used, l.maxn, l.step);
    PlaceComplete(end, a, l.step, l.used, l);
  }

  /** A fitting placement after the header is the one Place returns. */
  lemma PlaceComplete(end: nat, a: nat, st: nat, used: nat, l: Layout)
    requires a > 0 && st > 0 && used < end
    requires l.align == a && l.step == st && l.used == used
    requires l.maxn > 0 && l.maxn == Capacity(end - used, st)
    requires l.data == AlignUp(used + BitmapBytes(l.maxn), a)
    requires l.data + l.maxn * st <= end
    ensures Place(end, a, st, used) == Some(l)
  {
    SlotsLeaveRoom(end, l.data, l.maxn, st);
  }

  /** Slots that fit after `data` leave `data` inside the buffer. */
  lemma SlotsLeaveRoom(end: nat, data: nat, n: nat, st: nat)
    requires n > 0 && st > 0 && data + n * st <= end
    ensures data < end && n * st <= end - data
  {
    MulMonotone(n, st);
  }

  /**
    tb_fpool_init: lay out the buffer as Plan does and zero-fill it. The pool
    is valid, empty, every byte of it is zero and the hint is the first slot.
  */
  function Init(base: nat, size: nat, step: nat, align: nat): (r: Option<Pool>)
    ensures r.None? <==> Plan(base, size, step, align).None?
    ensures base == 0 || size == 0 || step == 0 || align > AlignMax ==> r.None?
    ensures r.Some? ==> Valid(r.value)
    ensures r.Some? ==>
              var l := Plan(base, size, step, align).value;
              && r.value.align == l.align && r.value.step == l.step && r.value.maxn == l.maxn
              && r.value.used == l.used && r.value.data == l.data
    // a buffer smaller than the header and one slot is refused
    ensures r.Some? ==> HeaderBytes + 1 + r.value.step <= size
    // fresh: no slot used, every byte zero, the hint at the first slot
    ensures r.Some? ==> r.value.size == 0 && r.value.pred == SlotAddr(r.value, 0)
    ensures r.Some? ==> forall j | 0 <= j < 8 * |r.value.bitmap| :: !Bit(r.value.bitmap, j)
    ensures r.Some? ==> forall i | 0 <= i < |r.value.slots| :: r.value.slots[i] == Zeros(r.value.step)
  {
    match Plan(base, size, step, align)
    case None => None
    case Some(l) =>
      var p := Fresh(l.align, l.step, l.maxn, l.used, l.data);
      FreshValid(p);
      MulMonotone(l.maxn, l.step);
      Some(p)
  }

  /** The freshly laid out pool: every bitmap and data byte zero, no slot used, the hint at slot 0. */
  function Fresh(a: nat, st: nat, maxn: nat, used: nat, data: nat): (p: Pool)
    requires used <= data
  {
    Pool(Magic, a, st, maxn, 0, data, used, data, Zeros(data - used), seq(maxn, _ => Zeros(st)))
  }

  /** A fresh pool over an aligned layout is valid. */
  lemma FreshValid(p: Pool)
    requires p.used <= p.data
    requires p == Fresh(p.align, p.step, p.maxn, p.used, p.data)
    requires IsPow2(p.align) && WordBytes <= p.align <= AlignMax
    requires p.step > 0 && p.maxn > 0 && p.used > 0
    requires p.used % p.align == 0 && p.data % p.align == 0 && p.step % p.align == 0
    requires p.used + BitmapBytes(p.maxn) <= p.data
    ensures Valid(p)
  {
    WordAligned(p.used, p.data, p.align);
    WordsFit(p.data - p.used, p.maxn);
    BitmapHoldsSlots(p.maxn);
    StepsAligned(p.data, p.step, p.align);
    assert p.pred == SlotAddr(p, 0);
    CountAllClear(p.bitmap, p.maxn);
  }

  /** Addresses on an alignment of at least the word size are word aligned, and so is the gap between them. */
  lemma WordAligned(used: nat, data: nat, a: nat)
    requires IsPow2(a) && WordBytes <= a
    requires used <= data && used % a == 0 && data % a == 0
    ensures used % WordBytes == 0 && (data - used) % WordBytes == 0
  {
    assert IsPow2(2) && IsPow2(4) && IsPow2(8);
    Pow2Divides(a, WordBytes);
    ModTrans(used, a, WordBytes);
    ModTrans(data, a, WordBytes);
  }

  /** Every slot of an aligned data start and an aligned step is aligned. */
  lemma StepsAligned(data: nat, step: nat, a: nat)
    requires a > 0 && data % a == 0 && step % a == 0
    ensures forall i :: SlotStart(data, step, i) % a == 0
  {
    forall i
      ensures SlotStart(data, step, i) % a == 0
    {
      ModAddMul(data, i, step, a);
    }
  }

  /**
    The alignment tb_fpool_init uses: the request rounded up to a power of
    two, the word size when the request is 0, and never below the word size.
    It is the least power of two not below the request and the word size.
  */
  function ResolveAlign(align: nat): (a: nat)
    ensures IsPow2(a) && WordBytes <= a
    ensures align <= a && (a == WordBytes || a < 2 * align)
  {
    var a0 := if align != 0 then AlignPow2(align) else WordBytes;
    assert IsPow2(2) && IsPow2(4) && IsPow2(8);
    if a0 < WordBytes then WordBytes else a0
  }

  lemma MulMonotone(n: nat, s: nat)
    requires n >= 1
    ensures n * s >= s
  {
    assert n * s == (n - 1) * s + s;
  }

  // ---------------------------------------------------------------------------
  // tb_fpool_clear and tb_fpool_exit

  /** The data region after tb_memset(data, 0, maxn * step): every slot zero. */
  function ZeroSlots(n: nat, step: nat): (s: seq<seq<bv8>>)
    ensures |s| == n
    ensures forall i | 0 <= i < n :: s[i] == Zeros(step)
  {
    seq(n, _ => Zeros(step))
  }

  /**
    tb_fpool_clear: every slot becomes free, every data byte zero, the count
    0 and the hint the first slot; the layout is kept. A handle without the
    magic is left alone.
  */
  function Clear(p: Pool): (q: Pool)
    requires Handle(p)
    ensures Handle(q)
    ensures p.magic != Magic ==> q == p
    ensures Valid(p) ==> Valid(q) && SameLayout(p, q)
    ensures Valid(p) ==> q.size == 0 && q.pred == SlotAddr(q, 0)
    ensures Valid(p) ==> q.bitmap == Zeros(|p.bitmap|)
    ensures Valid(p) ==> forall i | 0 <= i < |q.slots| :: q.slots[i] == Zeros(q.step)
  {
    if p.magic != Magic then p
    else
      var slots := if p.data != 0 then ZeroSlots(p.maxn, p.step) else p.slots;
      BitmapHoldsSlots(p.maxn);
      var bm := if p.used != 0 then ZeroRange(p.bitmap, 0, BitmapBytes(p.maxn)) else p.bitmap;
      ClearedBitmap(p, bm);
      var q := p.(slots := slots, bitmap := bm, size := 0, pred := p.data);
      ResetValid(p, q);
      q
  }

  /** Zeroing the first BitmapBytes(maxn) bytes of a well-formed bitmap zeroes all of it. */
  lemma ClearedBitmap(p: Pool, bm: seq<bv8>)
    requires p.maxn <= 8 * BitmapBytes(p.maxn)
    requires BitmapBytes(p.maxn) <= |p.bitmap|
    requires forall i | p.maxn <= i < 8 * |p.bitmap| :: !Bit(p.bitmap, i)
    requires bm == ZeroRange(p.bitmap, 0, BitmapBytes(p.maxn))
    ensures bm == Zeros(|p.bitmap|)
  {
    forall k | 0 <= k < |bm|
      ensures bm[k] == 0
    {
      if k >= BitmapBytes(p.maxn) {
        forall t | 0 <= t < 8
          ensures !ByteBit(p.bitmap[k], t)
        {
          assert !Bit(p.bitmap, 8 * k + t);
        }
        ByteAllClear(p.bitmap[k]);
      }
    }
  }

  /** A well-formed pool with its bitmap and data zeroed, no slot used and the hint at slot 0 is valid. */
  lemma ResetValid(p: Pool, q: Pool)
    requires WellFormed(p)
    requires q == p.(slots := ZeroSlots(p.maxn, p.step), bitmap := Zeros(|p.bitmap|), size := 0, pred := p.data)
    ensures Valid(q)
  {
    assert q.pred == SlotAddr(q, 0);
    CountAllClear(q.bitmap, q.maxn);
  }

  /**
    tb_fpool_exit: clear the pool, then zero the header. The magic is gone, so
    the handle is dead and every later call on it is refused.
  */
  function Exit(p: Pool): (q: Pool)
    requires Handle(p)
    ensures Handle(q) && q.magic != Magic
    ensures p.magic != Magic ==> q == p
    ensures Valid(p) ==> q.magic == 0 && q.align == 0
    ensures Valid(p) ==> q.size == 0 && q.maxn == 0 && q.step == 0 && q.data == 0 && q.used == 0 && q.pred == 0
    ensures Valid(p) ==> q.bitmap == Zeros(|p.bitmap|)
    ensures Valid(p) ==> forall i | 0 <= i < |q.slots| :: q.slots[i] == Zeros(p.step)
  {
    if p.magic != Magic then p
    else Clear(p).(magic := 0, align := 0, step := 0, maxn := 0, size := 0, data := 0, used := 0, pred := 0)
  }

  // ---------------------------------------------------------------------------
  // tb_fpool_malloc_pred, tb_fpool_malloc_find, tb_fpool_malloc, tb_fpool_malloc0

  /**
    Hand out the free slot `i`: set its bit, and move the hint to slot `i + 1`
    when that slot exists and is free (otherwise the hint stays, possibly on a
    used slot). The count is the caller's business.
  */
  function Take(p: Pool, i: nat): (q: Pool)
    requires WellFormed(p) && i < p.maxn && !Bit(p.bitmap, i)
    ensures Takes(p, q, i)
    ensures Count(q.bitmap, q.maxn) == Count(p.bitmap, p.maxn) + 1
  {
    var bm := Set1(p.bitmap, i);
    var pred := if i + 1 < p.maxn && !Bit(bm, i + 1) then SlotAddr(p, i + 1) else p.pred;
    TakeFacts(p, i, bm, pred);
    p.(bitmap := bm, pred := pred)
  }

  /** Take's update is the one Takes describes, and it adds one to the number of set bits. */
  lemma TakeFacts(p: Pool, i: nat, bm: seq<bv8>, pred: nat)
    requires WellFormed(p) && i < p.maxn && !Bit(p.bitmap, i)
    requires bm == Set1(p.bitmap, i)
    requires pred == if i + 1 < p.maxn && !Bit(bm, i + 1) then SlotAddr(p, i + 1) else p.pred
    ensures Takes(p, p.(bitmap := bm, pred := pred), i)
    ensures Count(bm, p.maxn) == Count(p.bitmap, p.maxn) + 1
  {
    CountSet1(p.bitmap, i, p.maxn);
    assert pred == NextHint(p, i);
    assert IsSlot(p, pred) by {
      if pred != p.pred {
        assert pred == SlotStart(p.data, p.step, i + 1);
      }
    }
    BitsChangeWellFormed(p, p.(bitmap := bm, pred := pred));
  }

  /** Changing only bits of slots, and moving the hint to a slot, keeps a pool well formed. */
  lemma BitsChangeWellFormed(p: Pool, q: Pool)
    requires WellFormed(p)
    requires q == p.(bitmap := q.bitmap, pred := q.pred)
    requires |q.bitmap| == |p.bitmap|
    requires forall j | p.maxn <= j < 8 * |p.bitmap| :: Bit(q.bitmap, j) == Bit(p.bitmap, j)
    requires IsSlot(p, q.pred)
    ensures WellFormed(q)
  {
  }

  /**
    tb_fpool_malloc_pred: if the hinted slot is free, hand it out; otherwise
    NULL with nothing changed.
  */
  function MallocPred(p: Pool): (res: Ret<Option<nat>>)
    requires Valid(p)
    ensures res.value.None? ==> res.pool == p
    ensures res.value.None? <==> Bit(p.bitmap, SlotIndex(p, p.pred))
    ensures res.value.Some? ==>
              && res.value.value == p.pred
              && Takes(p, res.pool, SlotIndex(p, p.pred))
              && Count(res.pool.bitmap, p.maxn) == p.size + 1
  {
    SlotOffset(p, p.pred);
    var i := (p.pred - p.data) / p.step;
    if p.pred == 0 then Ret(p, None)
    else if (p.pred - p.data) % p.step != 0 then Ret(p, None)
    else if Bit(p.bitmap, i) then Ret(p, None)
    else Ret(Take(p, i), Some(p.pred))
  }

  /**
    tb_fpool_malloc_find with the word search replaced by the bit-by-bit
    reference (ScanWords proves the two agree; FindSlot runs the word search).
    It hands out the lowest free slot, and fails only when no slot is free.
  */
  function MallocFind(p: Pool): (res: Ret<Option<nat>>)
    requires Valid(p)
    ensures res.value.None? ==> res.pool == p
    ensures res.value.None? <==> LowestClear(p.bitmap, 0, p.maxn).None?
    ensures res.value.Some? ==>
              var i := LowestClear(p.bitmap, 0, p.maxn).value;
              && res.value.value == SlotAddr(p, i)
              && Takes(p, res.pool, i)
              && Count(res.pool.bitmap, p.maxn) == p.size + 1
  {
    var m := Words(p.maxn);
    if p.used % WordBytes != 0 then Ret(p, None)
    else
      var found := LowestClear(p.bitmap, 0, m * WordBits);
      SearchBeyondSlots(p, found);
      if found.None? then Ret(p, None)
      else if found.value >= p.maxn then Ret(p, None)
      else Ret(Take(p, found.value), Some(SlotAddr(p, found.value)))
  }

  /** Searching all the words the scan reads finds a slot exactly when searching the slots does, and the same one. */
  lemma SearchBeyondSlots(p: Pool, found: Option<nat>)
    requires p.maxn <= Words(p.maxn) * WordBits <= 8 * |p.bitmap|
    requires found == LowestClear(p.bitmap, 0, Words(p.maxn) * WordBits)
    ensures (found.Some? && found.value < p.maxn) <==> LowestClear(p.bitmap, 0, p.maxn).Some?
    ensures found.Some? && found.value < p.maxn ==> found == LowestClear(p.bitmap, 0, p.maxn)
  {
    if found.Some? && found.value < p.maxn {
      LowestClearIs(p.bitmap, 0, p.maxn, found.value);
    }
    var below := LowestClear(p.bitmap, 0, p.maxn);
    if below.Some? {
      LowestClearIs(p.bitmap, 0, Words(p.maxn) * WordBits, below.value);
    }
  }

  /**
    tb_fpool_malloc_find as written: the word-parallel scan of the bitmap, the
    range check of the found index, then the same update as the reference.
  */
  method FindSlot(p: Pool) returns (q: Pool, r: Option<nat>)
    requires Valid(p)
    ensures Ret(q, r) == MallocFind(p)
    ensures r.Some? ==> IsSlot(p, r.value) && !Bit(p.bitmap, SlotIndex(p, r.value))
  {
    var m := Words(p.maxn);
    BitmapHoldsSlots(p.maxn);
    if p.used % WordBytes != 0 {
      q, r := p, None;
      return;
    }
    var found := ScanWords(p.bitmap, m);
    if found.None? {
      q, r := p, None;
      return;
    }
    var i := found.value;
    if i >= p.maxn {
      q, r := p, None;
      return;
    }
    q := Take(p, i);
    r := Some(SlotAddr(p, i));
    SlotChecks(p, i);
  }

  /**
    One allocation from a live pool that has a free slot: the hinted slot if
    it is free, else the lowest free slot; the count goes up by one.
  */
  function MallocLive(p: Pool): (res: Ret<nat>)
    requires Valid(p) && p.size < p.maxn
    ensures Valid(res.pool) && SameLayout(p, res.pool)
    ensures IsSlot(p, res.value)
    ensures Takes(p, res.pool.(size := p.size), SlotIndex(p, res.value)) && res.pool.size == p.size + 1
    ensures !Bit(p.bitmap, SlotIndex(p, p.pred)) ==> res.value == p.pred
    ensures Bit(p.bitmap, SlotIndex(p, p.pred)) ==> res.value == SlotAddr(p, LowestClear(p.bitmap, 0, p.maxn).value)
  {
    var a := MallocPred(p);
    if a.value.Some? then
      Counted(p, a.pool, SlotIndex(p, p.pred));
      Ret(a.pool.(size := p.size + 1), p.pred)
    else
      CountBelowFindsClear(p.bitmap, p.maxn);
      var b := MallocFind(p);
      var i := LowestClear(p.bitmap, 0, p.maxn).value;
      SlotChecks(p, i);
      Counted(p, b.pool, i);
      Ret(b.pool.(size := p.size + 1), b.value.value)
  }

  /** A pool that took one slot from a valid pool is valid again once its count goes up by one. */
  lemma Counted(p: Pool, q: Pool, i: nat)
    requires Valid(p) && Takes(p, q, i)
    requires Count(q.bitmap, p.maxn) == p.size + 1
    ensures Valid(q.(size := p.size + 1)) && SameLayout(p, q.(size := p.size + 1))
    ensures q.(size := p.size + 1).(size := p.size) == q
  {
  }

  /**
    tb_fpool_malloc: NULL on a dead handle or a full pool; otherwise the hinted
    slot if it is free, else the lowest free slot, and the count goes up by one.
  */
  function Malloc(p: Pool): (res: Ret<Option<nat>>)
    requires Handle(p)
    ensures Handle(res.pool) && SameLayout(p, res.pool)
    ensures res.value.None? ==> res.pool == p
    ensures p.magic != Magic ==> res.value.None?
    ensures Valid(p) && p.size == p.maxn ==> res.value.None?
    ensures Valid(p) && p.size < p.maxn ==> res.value.Some?
    // the slot handed out was free and is now used; nothing else changes but the hint
    ensures res.value.Some? ==>
              && Valid(p) && IsSlot(p, res.value.value)
              && Takes(p, res.pool.(size := p.size), SlotIndex(p, res.value.value))
              && res.pool.size == p.size + 1
    // which slot: the hinted one when it is free, else the lowest free one
    ensures Valid(p) && p.size < p.maxn && !Bit(p.bitmap, SlotIndex(p, p.pred)) ==>
              res.value == Some(p.pred)
    ensures Valid(p) && p.size < p.maxn && Bit(p.bitmap, SlotIndex(p, p.pred)) ==>
              res.value == Some(SlotAddr(p, LowestClear(p.bitmap, 0, p.maxn).value))
  {
    if p.magic != Magic || p.step == 0 then Ret(p, None)
    else if p.size >= p.maxn then Ret(p, None)
    else
      var r := MallocLive(p);
      Ret(r.pool, Some(r.value))
  }

  /** tb_fpool_malloc0: tb_fpool_malloc, then the slot's `step` bytes are zeroed. */
  function Malloc0(p: Pool): (res: Ret<Option<nat>>)
    requires Handle(p)
    ensures Handle(res.pool) && SameLayout(p, res.pool)
    ensures res.value == Malloc(p).value
    ensures res.value.None? ==> res.pool == p
    ensures res.pool == Malloc(p).pool.(slots := res.pool.slots)
    ensures res.value.Some? ==>
              && res.pool.slots[SlotIndex(p, res.value.value)] == Zeros(p.step)
              && forall j | 0 <= j < |p.slots| && j != SlotIndex(p, res.value.value) :: res.pool.slots[j] == p.slots[j]
  {
    if p.magic != Magic then Ret(p, None)
    else
      var m := Malloc(p);
      if m.value.None? then m
      else
        var i := SlotIndex(p, m.value.value);
        Ret(ZeroSlot(m.pool, i), m.value)
  }

  /** Zeroing the bytes of one slot keeps a live pool live. */
  function ZeroSlot(q: Pool, i: nat): (r: Pool)
    requires Valid(q) && i < q.maxn
    ensures Valid(r) && SameLayout(q, r)
    ensures r == q.(slots := r.slots)
    ensures r.slots[i] == Zeros(q.step)
    ensures forall j | 0 <= j < |q.slots| && j != i :: r.slots[j] == q.slots[j]
  {
    var r := q.(slots := q.slots[i := Zeros(q.step)]);
    assert WellFormed(r);
    r
  }

  // ---------------------------------------------------------------------------
  // tb_fpool_free

  /**
    The address tests of tb_fpool_free, in its order: inside the data region
    with room for a whole slot, on the pool's alignment, a whole number of
    steps past the data start.
  */
  predicate FreeAccepts(p: Pool, ptr: nat)
    requires p.step > 0 && p.align > 0
  {
    && p.data <= ptr && ptr + p.step <= p.data + p.maxn * p.step
    && ptr % p.align == 0
    && (ptr - p.data) % p.step == 0
  }

  /** The address tests of tb_fpool_free accept exactly the slot addresses. */
  lemma FreeAcceptsSlots(p: Pool, ptr: nat)
    requires p.step > 0 && AlignedSlots(p)
    ensures FreeAccepts(p, ptr) <==> IsSlot(p, ptr)
  {
    if IsSlot(p, ptr) {
      SlotChecks(p, SlotIndex(p, ptr));
    }
    if FreeAccepts(p, ptr) {
      var k := (ptr - p.data) / p.step;
      DivMul(ptr - p.data, p.step);
      assert ptr == SlotAddr(p, k);
      SlotBelow(k, p.maxn, p.step);
    }
  }

  /** Give back the used slot `i` at `ptr`: clear its bit and make it the hint. */
  function Release(p: Pool, i: nat): (q: Pool)
    requires Valid(p) && i < p.maxn && Bit(p.bitmap, i)
    ensures Valid(q) && SameLayout(p, q)
    ensures q == p.(bitmap := Set0(p.bitmap, i), pred := SlotAddr(p, i), size := q.size) && q.size + 1 == p.size
  {
    CountSet0(p.bitmap, i, p.maxn);
    var q := p.(bitmap := Set0(p.bitmap, i), pred := SlotAddr(p, i));
    assert IsSlot(p, SlotAddr(p, i));
    BitsChangeWellFormed(p, q);
    q.(size := p.size - 1)
  }

  /**
    tb_fpool_free: false, with nothing changed, on a dead handle, an empty
    pool, or an address that is not the start of one of the pool's slots.
    Freeing a used slot clears its bit, makes it the hint and lowers the count;
    freeing a slot that is already free returns true and changes nothing.
  */
  function Free(p: Pool, ptr: nat): (res: Ret<bool>)
    requires Handle(p)
    ensures Handle(res.pool) && SameLayout(p, res.pool)
    ensures !res.value ==> res.pool == p
    ensures p.magic != Magic ==> !res.value
    ensures Valid(p) ==> (res.value <==> p.size > 0 && IsSlot(p, ptr))
    ensures Valid(p) && res.value && Bit(p.bitmap, SlotIndex(p, ptr)) ==>
              && res.pool == p.(bitmap := Set0(p.bitmap, SlotIndex(p, ptr)), pred := ptr, size := res.pool.size)
              && res.pool.size + 1 == p.size
    ensures Valid(p) && res.value && !Bit(p.bitmap, SlotIndex(p, ptr)) ==> res.pool == p
  {
    if p.magic != Magic || p.step == 0 || p.align == 0 then Ret(p, false)
    else if p.size == 0 then Ret(p, false)
    else
      FreeAcceptsSlots(p, ptr);
      if !FreeAccepts(p, ptr) then Ret(p, false)
      else
        var i := SlotIndex(p, ptr);
        if !Bit(p.bitmap, i) then Ret(p, true)
        else Ret(Release(p, i), true)
  }
}

=== FILE: options.dfy ===
/** The optional value used wherever the C code returns a pointer that may be NULL. */
module Options {

  datatype Option<+T> = None | Some(value: T)
}

=== FILE: properties.dfy ===
/**
  Properties of the pool that relate several calls: allocation and release
  undo each other, a fresh pool hands out its slots in address order until it
  is full, clearing gives back the freshly initialised pool, handed-out blocks
  never overlap, and a pool is dead after exit.
*/
module FPoolProps {
  import opened Options
  import opened Align
  import opened Bitmap
  import opened FPool

  // ---------------------------------------------------------------------------
  // Blocks

  /** Two different slots of a pool never overlap. */
  lemma SlotsDisjoint(p: Pool, a: nat, b: nat)
    requires p.step > 0
    requires IsSlot(p, a) && IsSlot(p, b) && a != b
    ensures a + p.step <= b || b + p.step <= a
  {
    var i := SlotIndex(p, a);
    var j := SlotIndex(p, b);
    if i < j {
      SlotFits(i, j, p.step);
    } else {
      SlotFits(j, i, p.step);
    }
  }

  /** A block Malloc hands out is aligned, lies inside the data region and was not in use. */
  lemma MallocBlock(p: Pool)
    requires Handle(p)
    requires Malloc(p).value.Some?
    ensures var a := Malloc(p).value.value;
            && a % p.align == 0
            && p.data <= a && a + p.step <= p.data + p.maxn * p.step
            && !Bit(p.bitmap, SlotIndex(p, a))
            && Bit(Malloc(p).pool.bitmap, SlotIndex(p, a))
  {
    var a := Malloc(p).value.value;
    SlotChecks(p, SlotIndex(p, a));
  }

  // ---------------------------------------------------------------------------
  // Malloc and Free undo each other

  /**
    Allocating and then freeing the block gives back the pool as it was,
    except that the hint now names the freed block.
  */
  lemma MallocThenFree(p: Pool)
    requires Valid(p) && p.size < p.maxn
    ensures var m := Malloc(p);
            && m.value.Some?
            && Free(m.pool, m.value.value) == Ret(p.(pred := m.value.value), true)
  {
    var m := Malloc(p);
    var a := m.value.value;
    var i := SlotIndex(p, a);
    assert m.pool.bitmap == Set1(p.bitmap, i);
    SlotChecks(m.pool, i);
    assert SlotIndex(m.pool, a) == i;
    Set0Set1(p.bitmap, i);
  }

  /**
    Freeing a used block makes the next allocation hand back that very block,
    and the pool is then as before except for the hint.
  */
  lemma FreeThenMalloc(p: Pool, i: nat)
    requires Valid(p) && i < p.maxn && Bit(p.bitmap, i)
    ensures var a := SlotAddr(p, i);
            var f := Free(p, a);
            && f.value
            && Malloc(f.pool).value == Some(a)
            && Malloc(f.pool).pool == p.(pred := Malloc(f.pool).pool.pred)
  {
    var a := SlotAddr(p, i);
    SlotChecks(p, i);
    CountSet0(p.bitmap, i, p.maxn);
    var f := Free(p, a);
    assert f.pool.bitmap == Set0(p.bitmap, i);
    SlotChecks(f.pool, i);
    var m := Malloc(f.pool);
    assert m.value == Some(a);
    assert m.pool.bitmap == Set1(Set0(p.bitmap, i), i);
    Set1Set0(p.bitmap, i);
  }

  // ---------------------------------------------------------------------------
  // A fresh pool hands out its slots in order

  /**
    The pool after `k` allocations from a fresh or cleared pool with no free in
    between: exactly slots `0 .. k` are used, and the hint names slot `k`.
  */
  ghost predicate Prefix(p: Pool, k: nat)
  {
    && Valid(p) && k <= p.maxn && p.size == k
    && (forall j | 0 <= j < p.maxn :: Bit(p.bitmap, j) <==> j < k)
    && (k < p.maxn ==> p.pred == SlotAddr(p, k))
  }

  /** What the allocation that finds slots `0 .. i` used hands out: slot `i`, or NULL once all are used. */
  function Expected(p: Pool, i: nat): (r: Option<nat>)
    ensures r.Some? <==> i < p.maxn
    ensures r.Some? ==> IsSlot(p, r.value)
  {
    if i < p.maxn then
      assert SlotAddr(p, i) == SlotStart(p.data, p.step, i);
      Some(SlotAddr(p, i))
    else None
  }

  /** From a prefix pool Malloc hands out the next slot in address order and takes one more slot of the prefix. */
  lemma SequentialStep(p: Pool, k: nat)
    requires Prefix(p, k) && k < p.maxn
    ensures Malloc(p).value == Expected(p, k)
    ensures Prefix(Malloc(p).pool, k + 1)
  {
    MallocFromPrefix(p, k);
    PrefixGrows(p, k, Malloc(p).pool);
  }

  /** The allocation from a prefix pool, field by field. */
  lemma MallocFromPrefix(p: Pool, k: nat)
    requires Prefix(p, k) && k < p.maxn
    ensures Malloc(p).value == Expected(p, k)
    ensures Malloc(p).pool == p.(bitmap := Set1(p.bitmap, k), pred := NextHint(p, k), size := k + 1)
  {
    SlotChecks(p, k);
    assert !Bit(p.bitmap, k);
  }

  /** Taking slot `k` of a prefix pool of `k` slots, with the hint moved on, gives a prefix pool of `k + 1`. */
  lemma PrefixGrows(p: Pool, k: nat, q: Pool)
    requires Prefix(p, k) && k < p.maxn
    requires Valid(q)
    requires q == p.(bitmap := Set1(p.bitmap, k), pred := NextHint(p, k), size := k + 1)
    ensures Prefix(q, k + 1)
  {
  }

  /** A full prefix pool refuses to allocate and stays as it is. */
  lemma FullRefuses(p: Pool)
    requires Prefix(p, p.maxn)
    ensures Malloc(p) == Ret(p, None)
  {
  }

  /** The results of `n` allocations in a row, and the pool after them. */
  function Allocs(p: Pool, n: nat): (res: Ret<seq<Option<nat>>>)
    requires Handle(p)
    ensures |res.value| == n
    ensures Handle(res.pool) && SameLayout(p, res.pool)
    decreases n
  {
    if n == 0 then Ret(p, [])
    else
      var m := Malloc(p);
      var rest := Allocs(m.pool, n - 1);
      Ret(rest.pool, [m.value] + rest.value)
  }

  /**
    Starting `k` slots into a fresh pool, `n` allocations in a row hand out
    slots `k, k + 1, ...` in address order while slots remain, then NULL.
  */
  lemma {:induction false} SequentialRun(p: Pool, k: nat, n: nat)
    requires Prefix(p, k)
    ensures forall j | 0 <= j < n :: Allocs(p, n).value[j] == Expected(p, k + j)
    decreases n
  {
    if n > 0 {
      var m := Malloc(p);
      var k' := if k < p.maxn then k + 1 else k;
      if k < p.maxn {
        SequentialStep(p, k);
      } else {
        FullRefuses(p);
      }
      SequentialRun(m.pool, k', n - 1);
      RunCons(p, n, m.value, m.pool);
      Shift(p, m.pool, k, k', m.value, Allocs(m.pool, n - 1).value, Allocs(p, n).value);
    }
  }

  /** `n` allocations are the first one followed by `n - 1` from the pool it leaves. */
  lemma RunCons(p: Pool, n: nat, v: Option<nat>, q: Pool)
    requires Handle(p) && n > 0
    requires Malloc(p) == Ret(q, v)
    ensures Allocs(p, n).value == [v] + Allocs(q, n - 1).value
  {
  }

  /** Prepending the result for slot `k` to the results from slot `k'` on gives the results from slot `k` on. */
  lemma Shift(p: Pool, q: Pool, k: nat, k': nat, v: Option<nat>, rest: seq<Option<nat>>, all: seq<Option<nat>>)
    requires q.data == p.data && q.step == p.step && q.maxn == p.maxn
    requires k' == k + 1 || (k' == k && k >= p.maxn)
    requires v == Expected(p, k)
    requires forall j | 0 <= j < |rest| :: rest[j] == Expected(q, k' + j)
    requires all == [v] + rest
    ensures forall j | 0 <= j < |all| :: all[j] == Expected(p, k + j)
  {
    forall j | 1 <= j < |all|
      ensures all[j] == Expected(p, k + j)
    {
      assert all[j] == rest[j - 1];
    }
  }

  /** A freshly initialised pool holds no used slot and hints at its first slot. */
  lemma InitPrefix(base: nat, size: nat, step: nat, align: nat)
    requires Init(base, size, step, align).Some?
    ensures Prefix(Init(base, size, step, align).value, 0)
  {
    var p := Init(base, size, step, align).value;
    forall j | 0 <= j < p.maxn
      ensures !Bit(p.bitmap, j)
    {
    }
  }

  /** A cleared pool holds no used slot and hints at its first slot. */
  lemma ClearPrefix(p: Pool)
    requires Valid(p)
    ensures Prefix(Clear(p), 0)
  {
    var q := Clear(p);
    forall j | 0 <= j < q.maxn
      ensures !Bit(q.bitmap, j)
    {
      assert q.bitmap[j / 8] == 0;
      ZeroByteBit(j % 8);
    }
  }

  /**
    A fresh or cleared pool hands out its `maxn` slots at `data, data + step,
    ...` in that order, then refuses every further request.
  */
  lemma FreshRun(p: Pool, n: nat)
    requires Prefix(p, 0)
    ensures forall j | 0 <= j < n ::
              Allocs(p, n).value[j] == if j < p.maxn then Some(p.data + j * p.step) else None
  {
    SequentialRun(p, 0, n);
    ExpectedAddresses(p, Allocs(p, n).value);
  }

  /** Results that follow Expected from slot 0 are the addresses `data + j * step`, then NULL. */
  lemma ExpectedAddresses(p: Pool, s: seq<Option<nat>>)
    requires forall j | 0 <= j < |s| :: s[j] == Expected(p, j)
    ensures forall j | 0 <= j < |s| :: s[j] == if j < p.maxn then Some(p.data + j * p.step) else None
  {
  }

  // ---------------------------------------------------------------------------
  // Clear and Exit

  /** Clearing a pool gives back exactly the pool tb_fpool_init made over the same layout. */
  lemma ClearRestoresInit(p: Pool, base: nat, size: nat, step: nat, align: nat)
    requires Init(base, size, step, align).Some?
    requires Valid(p) && SameLayout(p, Init(base, size, step, align).value)
    ensures Clear(p) == Init(base, size, step, align).value
  {
    var p0 := Init(base, size, step, align).value;
    var q := Clear(p);
    assert q.slots == p0.slots;
    assert q.bitmap == p0.bitmap by {
      forall k | 0 <= k < |q.bitmap|
        ensures q.bitmap[k] == p0.bitmap[k]
      {
      }
    }
  }

  /** Clearing twice is clearing once. */
  lemma ClearIdempotent(p: Pool)
    requires Valid(p)
    ensures Clear(Clear(p)) == Clear(p)
  {
    var q := Clear(p);
    var r := Clear(q);
    assert r.slots == q.slots;
  }

  /** Every call on an exited pool is refused and changes nothing. */
  lemma UseAfterExit(p: Pool, ptr: nat)
    requires Valid(p)
    ensures var q := Exit(p);
            && Malloc(q) == Ret(q, None)
            && Malloc0(q) == Ret(q, None)
            && Free(q, ptr) == Ret(q, false)
            && Clear(q) == q
            && Exit(q) == q
  {
  }

  // ---------------------------------------------------------------------------
  // Concrete layouts of tb_fpool_init

  /**
    1024 bytes at address 8 with 16-byte steps and 8-byte alignment: the
    header ends at 64 and the buffer at 1032, so 968 bytes are left. The
    capacity formula gives 59 slots, with 8 bitmap bytes and the data region
    from 72 on; 60 slots with the same 8 bitmap bytes would also end exactly at
    1032, so the formula does not always give the largest count that fits.
  */
  lemma CapacityExample()
    ensures Place(1032, 8, 16, 64) == Some(Layout(8, 16, 59, 64, 72))
    ensures 64 + BitmapBytes(60) <= 72 && 72 + 60 * 16 <= 1032
  {
    AlignUpExact(59, 8, 8);
    AlignUpExact(60, 8, 8);
    AlignUpExact(72, 8, 9);
  }

  /**
    386 bytes at address 128 with 128-byte steps and alignment: the header
    ends at 256 and the buffer at 514. The formula asks for 2 slots, the data
    region then starts at 384 and 2 slots do not fit, so init fails, although
    one slot at 384 would end at 512, inside the buffer.
  */
  lemma RefusesOneSlotExample()
    ensures Place(514, 128, 128, 256).None?
    ensures 256 + BitmapBytes(1) <= 384 && 384 + 1 * 128 <= 514
  {
    AlignUpExact(1, 8, 1);
    AlignUpExact(2, 8, 1);
    AlignUpExact(257, 128, 3);
  }

  /**
    520 bytes at address 8 with 8-byte steps and alignment: the header ends at
    64 and the buffer at 528, so 464 bytes are left. The formula gives 57
    slots; their 8 bitmap bytes and 456 slot bytes fill those 464 bytes
    exactly, so what the formula keeps is bitmap plus slots at most what is
    left, not strictly less.
  */
  lemma ExactFitExample()
    ensures Place(528, 8, 8, 64) == Some(Layout(8, 8, 57, 64, 72))
    ensures BitmapBytes(57) + 57 * 8 == 528 - 64
  {
    AlignUpExact(57, 8, 8);
    AlignUpExact(72, 8, 9);
  }

  /**
    tb_fpool_init refuses a buffer with a nonzero address and step exactly
    when no layout meets PlanFits: the formula's capacity, with the bitmap
    and the data at their aligned starts, must fit. A buffer with room for
    fewer slots can still be refused (RefusesOneSlotExample).
  */
  lemma InitAccepts(base: nat, size: nat, step: nat, align: nat)
    requires base > 0 && step > 0
    ensures Init(base, size, step, align).Some? <==> exists l :: PlanFits(base, size, step, align, l)
  {
    if Init(base, size, step, align).Some? {
      var l := Plan(base, size, step, align).value;
      PlanIff(base, size, step, align, l);
    }
    if exists l :: PlanFits(base, size, step, align, l) {
      var l :| PlanFits(base, size, step, align, l);
      PlanIff(base, size, step, align, l);
    }
  }

  /**
    tb_fpool_init accepts 1024 bytes at address 8 with 16-byte steps and
    8-byte alignment: the layout is the one CapacityExample computes.
  */
  // The values come in as parameters fixed by requires so that the solver does not evaluate Plan on literals.
  lemma InitExample(base: nat, size: nat, step: nat, align: nat)
    requires base == 8 && size == 1024 && step == 16 && align == 8
    ensures Plan(base, size, step, align) == Some(Layout(8, 16, 59, 64, 72))
    ensures Init(base, size, step, align).Some?
  {
    PlanExample(base, size, step, align);
    HeaderExample(base, base + size, step, align);
    CapacityExample();
  }

  /** For that buffer the alignment resolves to 8 and the buffer start is already aligned. */
  // The values come in as parameters fixed by requires so that the solver does not evaluate Plan on literals.
  lemma PlanExample(base: nat, size: nat, step: nat, align: nat)
    requires base == 8 && size == 1024 && step == 16 && align == 8
    ensures Plan(base, size, step, align) == Header(base, base + size, step, align)
  {
    ResolveExample(align);
    AlignUpExact(base, align, 1);
    AlignedPlan(base, size, step, align);
  }

  /**
    A buffer that already starts on an alignment that resolves to itself is
    laid out from its first byte: init goes straight on to place the header.
  */
  lemma AlignedPlan(base: nat, size: nat, step: nat, align: nat)
    requires base > 0 && size > 0 && step > 0
    requires ResolveAlign(align) == align <= AlignMax
    requires AlignUp(base, align) == base
    ensures Plan(base, size, step, align) == Header(base, base + size, step, align)
  {
  }

  /** A request of 8 resolves to 8. */
  // The values come in as parameters fixed by requires so that the solver does not evaluate Plan on literals.
  lemma ResolveExample(align: nat)
    requires align == 8
    ensures ResolveAlign(align) == align
  {
    assert AlignPow2(1) == 1 && AlignPow2(2) == 2 && AlignPow2(4) == 4;
  }

  /** With the buffer start at 8, the step 16 is already aligned and the bitmap starts at 64. */
  // The values come in as parameters fixed by requires so that the solver does not evaluate Plan on literals.
  lemma HeaderExample(handle: nat, end: nat, step: nat, a: nat)
    requires handle == 8 && end == 1032 && step == 16 && a == 8
    ensures Header(handle, end, step, a) == Place(end, a, step, handle + HeaderBytes)
  {
    AlignUpExact(step, a, 2);
    AlignUpExact(handle + HeaderBytes, a, 8);
  }
}
